=== FILE: README.md ===
# YouTube analytics dashboard — Dafny model

This project models the analytics core of a small multi-user YouTube tracking
dashboard. Each tracked video owns an append-only history of snapshots
`{date, views, likes, comments}`. A refresh cycle appends one snapshot per video
whenever the YouTube lookup answers. The dashboard reduces the histories to
totals and per-video "current" and "first day" figures. The browser shows a
growth percentage and abbreviated numbers. Around that core the model also
covers:

- the YouTube id extraction from a pasted URL;
- the add and delete rules of the videos collection;
- the shaping of the YouTube API answer (`parseInt(...) || 0`).

Everything is written as pure functions over immutable datatypes. The one
exception is a pair of methods that mirror the source's loops.

| module (file) | what it models |
|---|---|
| `Wrappers` (wrappers.dfy) | `Option` for `null`/`undefined`, `Result` for the routes' error replies |
| `IntParsing` (int_parsing.dfy) | JavaScript `parseInt` without radix, `parseInt(...) \|\| 0`, integer `toString()` |
| `YouTube` (youtube.dfy) | `getVideoInfo`'s result shaping: failure or no items gives `None`, first item otherwise |
| `VideoUrl` (video_url.dfy) | `extractVideoId` and the identical inline expression in the server |
| `Snapshots` (snapshots.dfy) | snapshot and counts records, `Latest`/`First` with the all-zero default, append |
| `DateSort` (date_sort.dfy) | the stable sort by date of the per-video analytics route |
| `Videos` (videos.dfy) | the videos collection, both add routes, delete by (id, owner), find by owner |
| `Analytics` (analytics.dfy) | the dashboard summary (both copies) and the per-video analytics route |
| `Refresh` (refresh.dfy) | `updateVideoAnalytics`: the append-or-skip cycle over all videos |
| `Growth` (growth.dfy) | `calculateGrowth` with `Math.round` over exact rationals |
| `Display` (display.dfy) | `formatNumber` thresholds and the figures of a `renderVideos` card |

The network lookup is an oracle parameter, `fetch: string -> Option<VideoInfo>`.
`Refresh.Lookup` builds it from an API response function through `GetVideoInfo`.
The clock is a parameter `now`. Database ids and owner ids are natural numbers,
and dates are integers.

Three behaviours of the source the model keeps:

- **Rounding.** `Math.round` rounds halves toward +∞, so −0.5 % shows as 0.
- **Counts can be negative.** A count comes from `parseInt` and can be negative,
  so counts are `int`. Lemmas that need non-negative counts say so.
- **Starting snapshot.** The server's inline add route starts a video with an
  all-zero snapshot. The videos router starts it with the fetched counts.

## Model

| member | source | states |
|---|---|---|
| `Analytics.Summarize` | analytics.js:27-53 | `totalVideos` is the input length. The three totals are the left-to-right sums of each video's latest counts. There is one row per video, in input order, with the same id, title, thumbnail and `addedAt`. `currentViews` is the last snapshot's views and `firstDayViews` is element 0's views, 0 for an empty history |
| `Analytics.AccumulateTotals` | server.js:161-170 | the inline `forEach` loop ends with exactly the summed latest counts of all videos, skipping empty histories |
| `Analytics.EmptyHistoriesAddNothing` | analytics.js:32-39 | the totals equal the totals over only the videos with a non-empty history |
| `Analytics.TotalViewsIsSumOfCurrentViews` | analytics.js:35-50 | `totalViews` is the sum of the rows' `currentViews` |
| `Analytics.TotalsNonNegative` | analytics.js:28-39 | no total is negative when no latest count is negative |
| `Analytics.NewVideoRow` | analytics.js:50-51 | a one-snapshot video has `currentViews == firstDayViews` |
| `Analytics.EmptyHistoryScenario` | server.js:163-170 | a video at 1000 views plus one with no history gives 2 videos and 1000 views |
| `Analytics.Dashboard` | server.js:159-160 | `totalVideos` is the number of the requesting user's documents, as `OwnedBy` selects them. The three totals are the sums of those documents' latest counts. There is one row per document, and every row is a document of that user |
| `Analytics.VideoHistory` | analytics.js:8-16 | unknown id gives not found. Otherwise the result is the stored history of a video with that id, date-sorted and a permutation of it, with equal dates in stored order. No owner check |
| `DateSort.SortByDate` | analytics.js:15 | the result is sorted by date and is a permutation of the input |
| `DateSort.SortIsStable` | analytics.js:15 | for every date, the snapshots with that date keep their stored order |
| `DateSort.SortedIsUnchanged` | analytics.js:15 | sorting a history already in date order returns it unchanged |
| `DateSort.ChronologicalAgrees` | analytics.js:34 | when dates follow storage order, the sorted route and the dashboard agree on latest and first |
| `DateSort.StorageOrderCanDisagree` | analytics.js:50 | with a later-dated snapshot stored first, the dashboard's latest (30) differs from the sorted route's last (50) |
| `Snapshots.Append` | youtubeService.js:39-43 | an append adds exactly one snapshot at the end. The old history is a prefix of the new one, and the new snapshot becomes the latest. First-day changes only when the history was empty |
| `Snapshots.SingleSnapshotFirstIsLatest` | analytics.js:50-51 | with one snapshot, the first-day and latest counts coincide |
| `Snapshots.AppendsKeepPrefix` | youtubeService.js:39 | after any number of appends the old history is still a prefix. For a non-empty history the first-day counts are unchanged |
| `Growth.CalculateGrowth` | app.js:368-371 | initial 0 gives 100 if current > 0, else 0. For any other initial the result r satisfies r − ½ ≤ 100·(current − initial)/initial < r + ½ |
| `Growth.RoundHalfUp` | app.js:370 | `Math.round(n/d)` is the integer r with r − ½ ≤ n/d < r + ½, for either sign of d |
| `Growth.GrowthNonNegative` | app.js:370 | growth is ≥ 0 when current ≥ initial > 0 |
| `Growth.GrowthNonPositive` | app.js:370 | growth is ≤ 0 when current ≤ initial, initial > 0 |
| `Growth.GrowthOfUnchanged` | app.js:369-370 | unchanged views give 0 growth, for every baseline including negative ones |
| `Growth.GrowthAtLeastMinusHundred` | app.js:369-370 | growth is never below −100 for non-negative counts |
| `Growth.GrowthMonotone` | app.js:370 | growth is monotone in the current views for a fixed positive baseline |
| `Growth.GrowthExamples` | app.js:369-370 | 100 → 300 gives 200. 0 → 50 gives 100. 0 → 0 gives 0 |
| `Growth.GrowthTiesRoundUp` | app.js:370 | halves round toward +∞: −0.5 % gives 0, 0.5 % gives 1 |
| `Display.FormatNumber` | app.js:359-366 | below 1000 the text is exactly the integer's `toString()` form (`IntToString`), which `parseInt` reads back as the same number. `K` exactly for 1000 ≤ n < 1000000, `M` exactly for n ≥ 1000000 |
| `Display.FormatMonotone` | app.js:359-366 | a larger number never gets a smaller suffix |
| `Display.CardMatchesDashboard` | app.js:289-305 | the card's views, first-day views and growth equal those of the server's dashboard row. Likes and comments come from the last snapshot |
| `Display.RenderVideos` | app.js:283-305 | no videos gives the empty message. Otherwise there is one card per video, in order. Each card shows the latest views, likes and comments and the first-day views through `formatNumber`, and the growth between first-day and latest views. An empty history shows zeros |
| `Display.ThreeSnapshotCard` | app.js:299-305 | snapshots of 100, 150 and 300 views show "300" now, "100" on the first day, and growth 200 |
| `Display.ZeroSnapshotCard` | app.js:299-305 | a single all-zero snapshot shows "0" views and growth 0 |
| `IntParsing.ParseCount` | youtubeService.js:22-24 | a missing field gives 0, and so does text with no digit after the white space and an optional sign. A plain digit string gives its decimal value. Any other text gives what `parseInt` read, or 0 for NaN |
| `IntParsing.ParseDecimalPrefix` | youtubeService.js:22 | `parseInt` reads back the printed decimal digits and ignores a non-digit tail. The exception is a `0` followed by `x`, which starts a hexadecimal number |
| `IntParsing.DecimalCountIsRead` | youtubeService.js:22-24 | a count field holding the decimal digits of n reads as n |
| `IntParsing.IntToStringRoundTrip` | app.js:365 | `parseInt(n.toString()) == n` for every integer |
| `IntParsing.ParseIgnoresLeadingSpace` | youtubeService.js:22 | leading white space does not change what `parseInt` reads |
| `YouTube.GetVideoInfo` | youtubeService.js:4-30 | a failed request or an empty `items` gives `None`. Otherwise the result carries the first item's title and thumbnail, and each count is that item's statistics field read with `parseInt(...) \|\| 0` |
| `YouTube.DecimalCountsAreRead` | youtubeService.js:18-25 | decimal count strings are stored as those numbers |
| `YouTube.UnreadableCountsAreZero` | youtubeService.js:22-24 | views, likes and comments are each stored as 0 when the field is absent or its text has no digit for `parseInt` to read |
| `VideoUrl.ExtractVideoId` | videos.js:88-92 | a returned id is non-empty and contains none of `&`, `\n`, `?`, `#` |
| `VideoUrl.Scan` | videos.js:89-91 | every id the position-by-position search returns is non-empty and terminator-free |
| `VideoUrl.ExtractIsLeftmostMatch` | videos.js:89-91 | an id is returned exactly when the expression matches at some position. The id is the capture at the leftmost matching position |
| `VideoUrl.ExtractIsFirstMatch` | videos.js:90-91 | the id is the capture at the first position where the expression matches |
| `VideoUrl.NoMarkerNoId` | videos.js:89-91 | a URL containing neither marker gives `None` |
| `VideoUrl.MarkerRoundTrip` | videos.js:89 | a valid id written after either marker, then a terminator or the end, is extracted again. The prefix before the marker must contain no `y` |
| `VideoUrl.WatchLinkRoundTrip` | videos.js:89-91 | a watch page link with a `&t=` parameter yields exactly its id |
| `VideoUrl.ShareLinkRoundTrip` | server.js:106 | a short share link yields exactly its id |
| `Videos.Register` | videos.js:12-39 | a URL without a match is rejected as invalid. A pair the user already tracks is rejected as a duplicate. A lookup miss is rejected as not found. Success is exactly the absence of all three. On success one document is appended after the unchanged collection. It has the requester as owner, the extracted id, the looked-up title and thumbnail, the URL, and exactly one snapshot of the looked-up counts |
| `Videos.RegisterPreservesValid` | videos.js:18-21 | a successful add keeps document ids and (owner, YouTube id) pairs unique |
| `Videos.AddVideoInline` | server.js:105-119 | a URL without a match is rejected as invalid, and a pair the user already tracks as a duplicate. It succeeds exactly otherwise. The appended document has the requester as owner, the extracted id, the placeholder title, the thumbnail derived from the id, the URL, and one all-zero snapshot |
| `Videos.DeleteVideo` | videos.js:73-80 | fails, with not found, exactly when no document matches both id and owner. Otherwise it removes the first matching document and keeps the others in order |
| `Videos.DeletePreservesValid` | videos.js:73-76 | a successful delete keeps the collection valid and shrinks it by one. No document with that id remains |
| `Videos.DeleteNeedsOwner` | server.js:148-149 | a request for a video the requester does not own reports not found and changes nothing |
| `Videos.OwnedBy` | analytics.js:25 | the user's videos: each is in the collection and owned by the user. Every owned document appears exactly as often as in the collection, and no other document appears |
| `Refresh.RefreshVideo` | youtubeService.js:37-45 | only the history changes, and the old history is a prefix of the new one. A lookup miss leaves the video as it was. A hit appends one snapshot that becomes the latest with the fetched counts. For a non-empty history the first-day counts stay the same |
| `Refresh.UpdateVideoAnalytics` | youtubeService.js:32-54 | every video is visited in order. A hit gets exactly one appended snapshot with the fetched counts, and a miss stays unchanged. No identity changes and validity is preserved |
| `Refresh.FailedLookupSkipsVideo` | youtubeService.js:14-16 | a thrown request or an empty `items` answer leaves the video untouched |
| `Refresh.RefreshPreservesValid` | youtubeService.js:36-48 | a cycle that changes only histories keeps ids and (owner, YouTube id) pairs unique |

## Left out

- Express routing, HTTP status codes and JSON bodies, CORS and the rate limiter are framework glue. Errors become the `Error` values `InvalidUrl`, `AlreadyAdded` and `NotFound`.
- Mongoose schemas, connection and queries are replaced by an in-memory sequence in insertion order. ObjectIds are natural numbers. A fresh `_id` is a parameter that must not already be in use, as the database guarantees.
- A failing `video.save()` is not modelled. In the source it would end the whole refresh cycle through the outer `catch` (youtubeService.js:49-53). Only lookup failures are skipped per video.
- The per-video route's `sort` reorders the loaded document's array in place but never saves it. Only the returned sequence is modelled.
- Registration, login, JWT signing and verification, and bcrypt hashing are not modelled. They are cryptographic libraries, and the model trusts the resolved user id.
- The axios request to the YouTube Data API is not modelled. Its outcome is the `Response` input of `GetVideoInfo`, or the `fetch` oracle.
- A response item without `snippet` or `thumbnails`, or a response without `items`, is not modelled. It throws inside the `try` and gives `null`, which `RequestFailed` already covers.
- The 100 ms pacing delay and the cron trigger are not modelled. They are timing only.
- Refresh.UpdateVideoAnalytics: stamps every appended snapshot with one `now`. The source takes a separate `Date.now` per push.
- The listing routes (my videos, all videos) are not modelled. They only query and sort by `addedAt`.
- DOM, HTML, CSS and Chart.js code is not modelled. This includes the chart, the stats panel and the alerts.
- Display.FormatNumber: models the suffix thresholds and the plain text, not the decimal digit that `toFixed(1)` prints before `K`/`M`. Its plain text is decimal digits also for n ≤ −1e21, where JavaScript prints exponent form.
- Growth.CalculateGrowth: is exact rational arithmetic. The source divides in IEEE doubles, and the rounded quotient can sit just below an exact .5 tie. Initial 200 and current 229 is such a case: the exact value is 14.5, but the double product is slightly less, so the source would show 14 where the model gives 15.
- JavaScript numbers are modelled as unbounded integers. Precision loss above 2^53 in sums, `parseInt` and growth is not modelled.
- IntParsing.IntToStringRoundTrip: holds for every integer only because `toString()` is modelled as plain decimal digits. JavaScript switches to exponent form from 1e21 in magnitude (-1e21 prints as "-1e+21").
- Every route is one atomic step. In the source, the duplicate check (`findOne`, videos.js:18-21 and server.js:109-110) and the insert (`save`, videos.js:41 and server.js:121) are separate awaits, and the schema (server.js:44-57) has no unique (owner, YouTube id) index. Two concurrent adds of the same URL by one user can therefore both pass the check and store a duplicate pair. `Videos.Valid` and `Videos.RegisterPreservesValid` hold only for requests that run one at a time.
- The lookup is a pure oracle. The model keeps the router's order of checks: a pair the user already tracks is reported as a duplicate even when the lookup would miss.

=== FILE: analytics.dfy ===
/**
 * The two analytics routes: the dashboard summary over a user's videos, and the
 * date-sorted history of one video. The dashboard takes "latest" and "first day"
 * from storage order and never sorts; the per-video route sorts by date.
 */
module Analytics {
  import opened Wrappers
  import opened Snapshots
  import opened DateSort
  import opened Videos

  /** One row of the dashboard's per-video list. */
  datatype VideoRecord = VideoRecord(
    id: nat,
    title: string,
    thumbnail: string,
    currentViews: int,
    firstDayViews: int,
    addedAt: int)

  /** The dashboard response. */
  datatype Summary = Summary(
    totalVideos: nat,
    totalViews: int,
    totalLikes: int,
    totalComments: int,
    videos: seq<VideoRecord>)

  /** What one video adds to the totals: its latest counts. */
  function Contribution(v: Video): Counts {
    Latest(v.analytics)
  }

  /** The totals after the dashboard's loop has visited `videos` from first to last. */
  function SumLatest(videos: seq<Video>): Counts {
    if |videos| == 0 then Zero
    else SumLatest(videos[..|videos| - 1]).Plus(Contribution(videos[|videos| - 1]))
  }

  /** The videos whose history is not empty, in order. */
  function WithHistory(videos: seq<Video>): (r: seq<Video>)
    ensures forall i :: 0 <= i < |r| ==> |r[i].analytics| > 0
    ensures |r| <= |videos|
  {
    if |videos| == 0 then []
    else
      var last := videos[|videos| - 1];
      WithHistory(videos[..|videos| - 1]) + (if |last.analytics| > 0 then [last] else [])
  }

  /** Videos with an empty history contribute nothing: the totals are those of the others. */
  lemma {:induction false} EmptyHistoriesAddNothing(videos: seq<Video>)
    ensures SumLatest(videos) == SumLatest(WithHistory(videos))
  {
    if |videos| > 0 {
      var init := videos[..|videos| - 1];
      var last := videos[|videos| - 1];
      EmptyHistoriesAddNothing(init);
      var w := WithHistory(init);
      if |last.analytics| > 0 {
        assert (w + [last])[..|w|] == w;
      } else {
        assert w + [] == w;
      }
    }
  }

  /** The running totals after the first `n` videos, counted by index. */
  function SumFirst(videos: seq<Video>, n: nat): Counts
    requires n <= |videos|
  {
    if n == 0 then Zero else SumFirst(videos, n - 1).Plus(Contribution(videos[n - 1]))
  }

  /** Counting by index and summing the prefix give the same totals. */
  lemma {:induction false} SumFirstIsSumLatest(videos: seq<Video>, n: nat)
    requires n <= |videos|
    ensures SumFirst(videos, n) == SumLatest(videos[..n])
  {
    if n > 0 {
      SumFirstIsSumLatest(videos, n - 1);
      assert videos[..n][..n - 1] == videos[..n - 1];
    }
  }

  /** One step of the loop: a video with a history adds its last snapshot, one without adds nothing. */
  lemma TotalsStep(videos: seq<Video>, i: nat)
    requires i < |videos|
    ensures |videos[i].analytics| > 0 ==>
              SumFirst(videos, i + 1) == SumFirst(videos, i).Plus(videos[i].analytics[|videos[i].analytics| - 1].ToCounts())
    ensures |videos[i].analytics| == 0 ==> SumFirst(videos, i + 1) == SumFirst(videos, i)
  {
  }

  /**
   * The dashboard's `forEach`: add the last snapshot's counts of every video that
   * has one. The totals are the left-to-right sums of the videos' latest counts.
   */
  method AccumulateTotals(videos: seq<Video>) returns (views: int, likes: int, comments: int)
    ensures Counts(views, likes, comments) == SumLatest(videos)
  {
    views, likes, comments := 0, 0, 0;
    var i := 0;
    while i < |videos|
      invariant 0 <= i <= |videos|
      invariant Counts(views, likes, comments) == SumFirst(videos, i)
    {
      TotalsStep(videos, i);
      var video := videos[i];
      if |video.analytics| > 0 {
        var latest := video.analytics[|video.analytics| - 1];
        views := views + latest.views;
        likes := likes + latest.likes;
        comments := comments + latest.comments;
      }
      i := i + 1;
    }
    SumFirstIsSumLatest(videos, |videos|);
    assert videos[..|videos|] == videos;
  }

  /** The per-video row: the last snapshot's views as current, element 0's as first day. */
  function RecordOf(v: Video): VideoRecord {
    var current := if |v.analytics| > 0 then v.analytics[|v.analytics| - 1].views else 0;
    var firstDay := if |v.analytics| > 0 then v.analytics[0].views else 0;
    VideoRecord(v.id, v.title, v.thumbnail, current, firstDay, v.addedAt)
  }

  /**
   * The dashboard summary of a list of videos: the count, the totals of the
   * latest counts, and one row per video in the same order.
   */
  function Summarize(videos: seq<Video>): (r: Summary)
    ensures r.totalVideos == |videos|
    ensures Counts(r.totalViews, r.totalLikes, r.totalComments) == SumLatest(videos)
    ensures |r.videos| == |videos|
    ensures forall i :: 0 <= i < |videos| ==>
              && r.videos[i].id == videos[i].id
              && r.videos[i].title == videos[i].title
              && r.videos[i].thumbnail == videos[i].thumbnail
              && r.videos[i].addedAt == videos[i].addedAt
              && r.videos[i].currentViews == Latest(videos[i].analytics).views
              && r.videos[i].firstDayViews == First(videos[i].analytics).views
  {
    var totals := SumLatest(videos);
    Summary(|videos|, totals.views, totals.likes, totals.comments,
            seq(|videos|, i requires 0 <= i < |videos| => RecordOf(videos[i])))
  }

  /** The dashboard route: the summary of the requesting user's videos. */
  function Dashboard(store: Store, userId: nat): (r: Summary)
    ensures r.totalVideos == |OwnedBy(store, userId)|
    ensures Counts(r.totalViews, r.totalLikes, r.totalComments) == SumLatest(OwnedBy(store, userId))
    ensures |r.videos| == r.totalVideos
    ensures forall i :: 0 <= i < |r.videos| ==> exists j :: 0 <= j < |store| && store[j].id == r.videos[i].id
                                                                            && store[j].userId == userId
  {
    var owned := OwnedBy(store, userId);
    var r := Summarize(owned);
    assert forall i :: 0 <= i < |r.videos| ==> r.videos[i].id == owned[i].id && owned[i] in store;
    r
  }

  /** The sum of the rows' current views. */
  function SumCurrentViews(records: seq<VideoRecord>): int {
    if |records| == 0 then 0 else SumCurrentViews(records[..|records| - 1]) + records[|records| - 1].currentViews
  }

  /** The total views shown on the dashboard are the sum of the per-video current views. */
  lemma {:induction false} TotalViewsIsSumOfCurrentViews(videos: seq<Video>)
    ensures Summarize(videos).totalViews == SumCurrentViews(Summarize(videos).videos)
  {
    if |videos| > 0 {
      var init := videos[..|videos| - 1];
      TotalViewsIsSumOfCurrentViews(init);
      assert Summarize(videos).videos[..|init|] == Summarize(init).videos;
    }
  }

  /** With no negative counts anywhere, no total is negative. */
  lemma {:induction false} TotalsNonNegative(videos: seq<Video>)
    requires forall i :: 0 <= i < |videos| ==> NonNegative(Latest(videos[i].analytics))
    ensures NonNegative(SumLatest(videos))
  {
    if |videos| > 0 {
      TotalsNonNegative(videos[..|videos| - 1]);
    }
  }

  /** A video with a single snapshot shows the same current and first-day views. */
  lemma NewVideoRow(v: Video)
    requires |v.analytics| == 1
    ensures RecordOf(v).currentViews == RecordOf(v).firstDayViews == v.analytics[0].views
  {
  }

  /** Two videos, one at 1000 latest views and one with no history: 2 videos, 1000 views. */
  lemma EmptyHistoryScenario(a: Video, b: Video)
    requires Latest(a.analytics).views == 1000 && |b.analytics| == 0
    ensures Summarize([a, b]).totalVideos == 2 && Summarize([a, b]).totalViews == 1000
  {
    assert [a, b][..1] == [a];
    assert [a][..0] == [];
    assert SumLatest([a]) == Latest(a.analytics);
    assert SumLatest([a, b]) == SumLatest([a]).Plus(Zero);
  }

  /** The position of the first video with document id `id`, or `|store|` when there is none. */
  function FirstWithId(store: Store, id: nat): (k: nat)
    ensures k <= |store|
    ensures forall j :: 0 <= j < k ==> store[j].id != id
    ensures k < |store| ==> store[k].id == id
  {
    if |store| == 0 || store[0].id == id then 0 else 1 + FirstWithId(store[1..], id)
  }

  /**
   * The per-video route (`findById`, no owner check): the video's history
   * sorted by date, the same snapshots in date order with equal dates in stored
   * order; not found when no video has that id.
   */
  function VideoHistory(store: Store, id: nat): (r: Result<seq<Snapshot>, Error>)
    ensures r.Failure? <==> !IdInUse(store, id)
    ensures r.Failure? ==> r.error == NotFound
    ensures r.Success? ==>
              exists k :: 0 <= k < |store| && store[k].id == id
                       && SortedByDate(r.value)
                       && multiset(r.value) == multiset(store[k].analytics)
                       && forall d :: AtDate(r.value, d) == AtDate(store[k].analytics, d)
  {
    var k := FirstWithId(store, id);
    if k == |store| then Failure(NotFound)
    else
      var sorted := SortByDate(store[k].analytics);
      assert forall d :: AtDate(sorted, d) == AtDate(store[k].analytics, d) by {
        forall d ensures AtDate(sorted, d) == AtDate(store[k].analytics, d) {
          SortIsStable(store[k].analytics, d);
        }
      }
      Success(sorted)
  }
}

=== FILE: date_sort.dfy ===
/**
 * The per-video analytics route sorts a history by date with
 * `(a, b) => new Date(a.date) - new Date(b.date)`. `Array.prototype.sort` is
 * stable, so snapshots with equal dates keep their stored order. The model is an
 * insertion sort over sequences.
 */
module DateSort {
  import opened Snapshots

  /** Dates never decrease along the sequence. */
  predicate SortedByDate(s: seq<Snapshot>) {
    forall i, j :: 0 <= i < j < |s| ==> s[i].date <= s[j].date
  }

  /** Puts `x` before the first element whose date is not earlier than its own. */
  function Insert(x: Snapshot, s: seq<Snapshot>): (r: seq<Snapshot>)
    requires SortedByDate(s)
    ensures SortedByDate(r)
    ensures multiset(r) == multiset(s) + multiset{x}
    ensures |r| == |s| + 1
    ensures r[0] == (if |s| == 0 || x.date <= s[0].date then x else s[0])
  {
    if |s| == 0 || x.date <= s[0].date then [x] + s
    else
      var t := Insert(x, s[1..]);
      assert s == [s[0]] + s[1..];
      [s[0]] + t
  }

  /** The history the route returns: sorted by date, stable among equal dates. */
  function SortByDate(s: seq<Snapshot>): (r: seq<Snapshot>)
    ensures SortedByDate(r)
    ensures multiset(r) == multiset(s)
    ensures |r| == |s|
  {
    if |s| == 0 then []
    else
      assert s == [s[0]] + s[1..];
      Insert(s[0], SortByDate(s[1..]))
  }

  /** The snapshots taken at date `d`, in sequence order. */
  function AtDate(s: seq<Snapshot>, d: int): seq<Snapshot> {
    if |s| == 0 then []
    else (if s[0].date == d then [s[0]] else []) + AtDate(s[1..], d)
  }

  /** Inserting `x` adds it in front of the snapshots with its date and moves no other. */
  lemma {:induction false} InsertAtDate(x: Snapshot, s: seq<Snapshot>, d: int)
    requires SortedByDate(s)
    ensures AtDate(Insert(x, s), d) == (if x.date == d then [x] else []) + AtDate(s, d)
  {
    if |s| == 0 || x.date <= s[0].date {
      assert ([x] + s)[1..] == s;
    } else {
      var t := Insert(x, s[1..]);
      assert Insert(x, s) == [s[0]] + t;
      assert ([s[0]] + t)[1..] == t;
      InsertAtDate(x, s[1..], d);
      var head := if s[0].date == d then [s[0]] else [];
      assert AtDate([s[0]] + t, d) == head + AtDate(t, d);
      assert AtDate(s, d) == head + AtDate(s[1..], d);
      if x.date == d {
        assert head == [];
      } else {
        assert AtDate(t, d) == AtDate(s[1..], d);
      }
    }
  }

  /** Stability: for every date, the snapshots with that date keep their stored order. */
  lemma {:induction false} SortIsStable(s: seq<Snapshot>, d: int)
    ensures AtDate(SortByDate(s), d) == AtDate(s, d)
  {
    if |s| > 0 {
      SortIsStable(s[1..], d);
      InsertAtDate(s[0], SortByDate(s[1..]), d);
    }
  }

  /** A history already in date order is returned as it is. */
  lemma {:induction false} SortedIsUnchanged(s: seq<Snapshot>)
    requires SortedByDate(s)
    ensures SortByDate(s) == s
  {
    if |s| > 0 {
      assert SortedByDate(s[1..]);
      SortedIsUnchanged(s[1..]);
      assert s == [s[0]] + s[1..];
    }
  }

  /** When dates follow storage order, the sorted route and the dashboard agree on latest and first. */
  lemma ChronologicalAgrees(s: seq<Snapshot>)
    requires SortedByDate(s)
    ensures Latest(SortByDate(s)) == Latest(s)
    ensures First(SortByDate(s)) == First(s)
  {
    SortedIsUnchanged(s);
  }

  /**
   * The dashboard trusts storage order and never sorts: a snapshot stored after
   * a later-dated one is "latest" on the dashboard but not in the sorted history.
   */
  lemma StorageOrderCanDisagree()
    ensures var s := [Snapshot(200, 50, 0, 0), Snapshot(100, 30, 0, 0)];
            Latest(s).views == 30 && Latest(SortByDate(s)).views == 50
  {
    var s := [Snapshot(200, 50, 0, 0), Snapshot(100, 30, 0, 0)];
    assert s[1..] == [Snapshot(100, 30, 0, 0)];
    assert SortByDate(s[1..]) == [Snapshot(100, 30, 0, 0)];
  }
}

=== FILE: display.dfy ===
/**
 * What the browser dashboard shows for a video card and for the totals: the
 * `formatNumber` abbreviation and the latest/first-day/growth figures of a card.
 * The markup itself is not modelled.
 */
module Display {
  import opened Wrappers
  import opened IntParsing
  import opened Snapshots
  import opened Videos
  import opened Analytics
  import opened Growth

  /**
   * A number as `formatNumber` shows it: the integer itself, or the number with a
   * `K` or `M` suffix. The one decimal digit printed before the suffix is not modelled.
   */
  datatype Shown = Plain(text: string) | Scaled(n: int, suffix: char)

  /** Below 1000 the number is printed as is; from 1000 on with `K`; from a million on with `M`. */
  function FormatNumber(n: int): (r: Shown)
    ensures r.Plain? <==> n < 1000
    ensures r.Plain? ==> r.text == IntToString(n)
    ensures r.Plain? ==> ParseInt(r.text) == Some(n)
    ensures r.Scaled? ==> r.n == n
    ensures (r.Scaled? && r.suffix == 'K') <==> 1000 <= n < 1000000
    ensures (r.Scaled? && r.suffix == 'M') <==> n >= 1000000
  {
    if n >= 1000000 then Scaled(n, 'M')
    else if n >= 1000 then Scaled(n, 'K')
    else
      IntToStringRoundTrip(n);
      Plain(IntToString(n))
  }

  /** How large a shown number is: plain, thousands, millions. */
  function Magnitude(s: Shown): nat {
    match s
    case Plain(_) => 0
    case Scaled(_, suffix) => if suffix == 'K' then 1 else 2
  }

  /** A larger number never gets a smaller suffix. */
  lemma FormatMonotone(a: int, b: int)
    requires a <= b
    ensures Magnitude(FormatNumber(a)) <= Magnitude(FormatNumber(b))
  {
  }

  /** What the card of one video shows. */
  datatype Card = Card(views: Shown, likes: Shown, comments: Shown, firstDayViews: Shown, growth: int)

  /** `analytics[i]`: the element, or `undefined` outside the array. */
  function At(history: seq<Snapshot>, i: int): Option<Snapshot> {
    if 0 <= i < |history| then Some(history[i]) else None
  }

  /** `(stats || {}).field || 0` for the three counters. */
  function CountsOr0(stats: Option<Snapshot>): Counts {
    match stats
    case None => Zero
    case Some(s) => s.ToCounts()
  }

  /**
   * The card `renderVideos` builds: latest stats from the last element, first-day
   * stats from element 0, missing values shown as 0, and the growth between them.
   */
  function RenderCard(v: Video): Card {
    var latest := CountsOr0(At(v.analytics, |v.analytics| - 1));
    var firstDay := CountsOr0(At(v.analytics, 0));
    Card(FormatNumber(latest.views), FormatNumber(latest.likes), FormatNumber(latest.comments),
         FormatNumber(firstDay.views), CalculateGrowth(firstDay.views, latest.views))
  }

  /** The browser card and the dashboard row agree on current and first-day views. */
  lemma CardMatchesDashboard(v: Video)
    ensures RenderCard(v).views == FormatNumber(RecordOf(v).currentViews)
    ensures RenderCard(v).firstDayViews == FormatNumber(RecordOf(v).firstDayViews)
    ensures RenderCard(v).growth == CalculateGrowth(RecordOf(v).firstDayViews, RecordOf(v).currentViews)
    ensures RenderCard(v).likes == FormatNumber(Latest(v.analytics).likes)
    ensures RenderCard(v).comments == FormatNumber(Latest(v.analytics).comments)
  {
  }

  /** What `renderVideos` puts in the container: a message for no videos, or one card per video in order. */
  datatype Rendered = NoVideos | Cards(cards: seq<Card>)

  /**
   * `renderVideos`: the empty message when there are no videos, otherwise one
   * card per video in order, showing the latest counts, the first-day views and
   * the growth between them, with zeros for an empty history.
   */
  function RenderVideos(videos: seq<Video>): (r: Rendered)
    ensures r.NoVideos? <==> |videos| == 0
    ensures r.Cards? ==> |r.cards| == |videos|
    ensures r.Cards? ==>
              forall i :: 0 <= i < |videos| ==>
                && r.cards[i].views == FormatNumber(Latest(videos[i].analytics).views)
                && r.cards[i].likes == FormatNumber(Latest(videos[i].analytics).likes)
                && r.cards[i].comments == FormatNumber(Latest(videos[i].analytics).comments)
                && r.cards[i].firstDayViews == FormatNumber(First(videos[i].analytics).views)
                && r.cards[i].growth == CalculateGrowth(First(videos[i].analytics).views, Latest(videos[i].analytics).views)
  {
    if |videos| == 0 then NoVideos
    else Cards(seq(|videos|, i requires 0 <= i < |videos| => RenderCard(videos[i])))
  }

  /** A video measured at 100, 150 and 300 views shows 300 now, 100 on the first day, and 200% growth. */
  lemma ThreeSnapshotCard(v: Video, d1: int, d2: int, d3: int)
    requires v.analytics == [Snapshot(d1, 100, 0, 0), Snapshot(d2, 150, 0, 0), Snapshot(d3, 300, 0, 0)]
    ensures RenderCard(v).growth == 200
    ensures RenderCard(v).views == Plain("300") && RenderCard(v).firstDayViews == Plain("100")
  {
    var latest := CountsOr0(At(v.analytics, |v.analytics| - 1));
    var firstDay := CountsOr0(At(v.analytics, 0));
    assert latest.views == 300 && firstDay.views == 100;
    GrowthExamples();
    PrintedHundreds();
  }

  lemma PrintedHundreds()
    ensures IntToString(300) == "300" && IntToString(100) == "100"
  {
    assert DecimalString(300) == DecimalString(30) + ['0'];
    assert DecimalString(30) == DecimalString(3) + ['0'];
    assert DecimalString(100) == DecimalString(10) + ['0'];
    assert DecimalString(10) == DecimalString(1) + ['0'];
  }

  /** A new video with one all-zero snapshot shows zero views and zero growth. */
  lemma ZeroSnapshotCard(v: Video, d: int)
    requires v.analytics == [Snapshot(d, 0, 0, 0)]
    ensures RenderCard(v).growth == 0
    ensures RenderCard(v).views == Plain("0")
  {
  }
}

=== FILE: growth.dfy ===
/**
 * The dashboard's growth percentage (`calculateGrowth`): the change from the
 * first-day views to the current views, in percent of the first-day views,
 * rounded to the nearest integer with halves rounded up as `Math.round` does.
 * The arithmetic is exact over the rationals.
 */
module Growth {

  /**
   * `Math.round(n / d)`: the integer nearest to n/d, the larger one on a tie,
   * that is floor(n/d + 1/2), computed on the fraction with a positive denominator.
   */
  function RoundHalfUp(n: int, d: int): (r: int)
    requires d != 0
    ensures d > 0 ==> 2 * d * r - d <= 2 * n < 2 * d * r + d
    ensures d < 0 ==> 2 * d * r - d >= 2 * n > 2 * d * r + d
  {
    var num := if d > 0 then n else -n;
    var den := if d > 0 then d else -d;
    var q := (2 * num + den) / (2 * den);
    assert 2 * den * q <= 2 * num + den < 2 * den * q + 2 * den by {
      DivBounds(2 * num + den, 2 * den);
    }
    q
  }

  /** Floor division by a positive number brackets the quotient. */
  lemma DivBounds(m: int, k: int)
    requires k > 0
    ensures k * (m / k) <= m < k * (m / k) + k
  {
  }

  /**
   * `calculateGrowth(initial, current)`: 100 when there was nothing and now
   * there is something, 0 when there was and is nothing; otherwise the rounded
   * value of 100 * (current - initial) / initial, characterised here by
   * r - 1/2 <= 100 * (current - initial) / initial < r + 1/2 for any non-zero initial.
   */
  function CalculateGrowth(initial: int, current: int): (r: int)
    ensures initial == 0 && current > 0 ==> r == 100
    ensures initial == 0 && current <= 0 ==> r == 0
    ensures initial > 0 ==>
              2 * initial * r - initial <= 200 * (current - initial) < 2 * initial * r + initial
    ensures initial < 0 ==>
              2 * initial * r - initial >= 200 * (current - initial) > 2 * initial * r + initial
  {
    if initial == 0 then (if current > 0 then 100 else 0)
    else RoundHalfUp(100 * (current - initial), initial)
  }

  /** A positive factor can be cancelled from both sides of a strict inequality. */
  lemma CancelPositive(k: int, a: int, b: int)
    requires k > 0 && k * a < k * b
    ensures a < b
  {
  }

  /** Growth from a positive baseline is not negative when the views did not fall. */
  lemma GrowthNonNegative(initial: int, current: int)
    requires 0 < initial <= current
    ensures CalculateGrowth(initial, current) >= 0
  {
  }

  /** Growth from a positive baseline is not positive when the views did not rise. */
  lemma GrowthNonPositive(initial: int, current: int)
    requires 0 < initial && current <= initial
    ensures CalculateGrowth(initial, current) <= 0
  {
  }

  /** Unchanged views mean zero growth, from any baseline, negative ones included. */
  lemma GrowthOfUnchanged(views: int)
    ensures CalculateGrowth(views, views) == 0
  {
    if views > 0 {
      GrowthNonNegative(views, views);
      GrowthNonPositive(views, views);
    } else if views < 0 {
      var r := CalculateGrowth(views, views);
      assert -views * (2 * r - 1) < -views * 1 && -views * -1 < -views * (2 * r + 1);
      CancelPositive(-views, 2 * r - 1, 1);
      CancelPositive(-views, -1, 2 * r + 1);
    }
  }

  /** With counts that are never negative, growth never goes below -100. */
  lemma GrowthAtLeastMinusHundred(initial: int, current: int)
    requires initial >= 0 && current >= 0
    ensures CalculateGrowth(initial, current) >= -100
  {
    if initial > 0 {
      var r := CalculateGrowth(initial, current);
      assert initial * -200 < initial * (2 * r + 1);
      CancelPositive(initial, -200, 2 * r + 1);
    }
  }

  /** More current views never mean less growth from the same positive baseline. */
  lemma GrowthMonotone(initial: int, current1: int, current2: int)
    requires 0 < initial && current1 <= current2
    ensures CalculateGrowth(initial, current1) <= CalculateGrowth(initial, current2)
  {
    var r1 := CalculateGrowth(initial, current1);
    var r2 := CalculateGrowth(initial, current2);
    assert initial * (2 * r1 - 1) < initial * (2 * r2 + 1);
    CancelPositive(initial, 2 * r1 - 1, 2 * r2 + 1);
  }

  /** Three worked examples: 100 to 300 is 200%, 0 to 50 is 100%, 0 to 0 is 0%. */
  lemma GrowthExamples()
    ensures CalculateGrowth(100, 300) == 200
    ensures CalculateGrowth(0, 50) == 100
    ensures CalculateGrowth(0, 0) == 0
  {
    var r := CalculateGrowth(100, 300);
    assert 200 * r - 100 <= 40000 < 200 * r + 100;
  }

  /** Halves round up, also below zero: 200 to 199 is -0.5%, shown as 0; 200 to 201 is 0.5%, shown as 1. */
  lemma GrowthTiesRoundUp()
    ensures CalculateGrowth(200, 199) == 0
    ensures CalculateGrowth(200, 201) == 1
  {
    var a := CalculateGrowth(200, 199);
    assert 400 * a - 200 <= -200 < 400 * a + 200;
    var b := CalculateGrowth(200, 201);
    assert 400 * b - 200 <= 200 < 400 * b + 200;
  }
}

=== FILE: int_parsing.dfy ===
/**
 * JavaScript's `parseInt(s)` (no radix argument) and `Number.prototype.toString()`
 * on integers, as the dashboard uses them: the API's count strings are read with
 * `parseInt(...) || 0`, and `formatNumber` prints small numbers with `toString()`.
 * JavaScript numbers are modelled as unbounded integers.
 */
module IntParsing {
  import opened Wrappers

  /** The white space and line terminators that `parseInt` skips before the number
      (section 12.2 and 12.3 of ECMA-262, with every Unicode Zs code point). */
  predicate IsJsSpace(c: char) {
    || c == '\t' || c == '\n' || c == '\U{B}' || c == '\U{C}' || c == '\r'
    || c == ' ' || c == '\U{A0}' || c == '\U{1680}'
    || ('\U{2000}' <= c <= '\U{200A}')
    || c == '\U{2028}' || c == '\U{2029}' || c == '\U{202F}' || c == '\U{205F}'
    || c == '\U{3000}' || c == '\U{FEFF}'
  }

  predicate IsDecimalDigit(c: char) {
    '0' <= c <= '9'
  }

  /** True when `c` is a digit in the given radix (10, or 16 after a `0x` prefix). */
  predicate IsDigitIn(c: char, radix: nat) {
    if radix == 16 then IsDecimalDigit(c) || ('a' <= c <= 'f') || ('A' <= c <= 'F')
    else IsDecimalDigit(c)
  }

  function DigitValue(c: char): (v: nat)
    requires IsDigitIn(c, 16)
    ensures v < 16
    ensures IsDecimalDigit(c) ==> v < 10
  {
    if IsDecimalDigit(c) then (c - '0') as nat
    else if 'a' <= c <= 'f' then (c - 'a') as nat + 10
    else (c - 'A') as nat + 10
  }

  /** The character that `toString()` prints for a decimal digit. */
  function DigitChar(d: nat): (c: char)
    requires d < 10
    ensures IsDecimalDigit(c) && DigitValue(c) == d
  {
    ('0' as int + d) as char
  }

  /** Drops the leading white space. */
  function TrimStart(s: string): (t: string)
    ensures |t| <= |s| && t == s[|s| - |t|..]
    ensures |t| > 0 ==> !IsJsSpace(t[0])
    ensures forall k :: 0 <= k < |s| - |t| ==> IsJsSpace(s[k])
  {
    if |s| > 0 && IsJsSpace(s[0]) then TrimStart(s[1..]) else s
  }

  /** The longest prefix of `s` made of digits in `radix`. */
  function DigitRun(s: string, radix: nat): (z: string)
    ensures |z| <= |s| && z == s[..|z|]
    ensures forall k :: 0 <= k < |z| ==> IsDigitIn(z[k], radix)
    ensures |z| < |s| ==> !IsDigitIn(s[|z|], radix)
  {
    if |s| > 0 && IsDigitIn(s[0], radix) then [s[0]] + DigitRun(s[1..], radix) else []
  }

  /** The value of a digit string, most significant digit first. */
  function Value(z: string, radix: nat): (v: nat)
    requires radix == 10 || radix == 16
    requires forall k :: 0 <= k < |z| ==> IsDigitIn(z[k], radix)
  {
    if |z| == 0 then 0
    else
      var last := z[|z| - 1];
      assert IsDigitIn(last, radix);
      Value(z[..|z| - 1], radix) * radix + DigitValue(last)
  }

  /**
   * `parseInt(s)`: skip white space, read an optional sign, switch to radix 16
   * after a `0x`/`0X` prefix, and read the longest run of digits. `None` stands
   * for NaN (no digit at all).
   */
  function ParseInt(s: string): Option<int> {
    ParseTrimmed(TrimStart(s))
  }

  /** `parseInt` once the leading white space is gone: an optional sign, then the unsigned number. */
  function ParseTrimmed(t: string): Option<int> {
    if |t| > 0 && t[0] == '-' then
      match ParseUnsigned(t[1..]) case None => None case Some(v) => Some(-(v as int))
    else
      var u := if |t| > 0 && t[0] == '+' then t[1..] else t;
      match ParseUnsigned(u) case None => None case Some(v) => Some(v as int)
  }

  /** The digits after the sign: radix 16 after a `0x`/`0X` prefix, 10 otherwise; `None` without a digit. */
  function ParseUnsigned(u: string): Option<nat> {
    if |u| >= 2 && u[0] == '0' && (u[1] == 'x' || u[1] == 'X') then ParseDigits(u[2..], 16)
    else ParseDigits(u, 10)
  }

  /** The longest run of digits at the start of `s`, read in `radix`; `None` when there is none. */
  function ParseDigits(s: string, radix: nat): Option<nat>
    requires radix == 10 || radix == 16
  {
    var z := DigitRun(s, radix);
    if |z| == 0 then None else Some(Value(z, radix))
  }

  /** A non-empty string of decimal digits and nothing else. */
  predicate IsDigitString(s: string) {
    |s| > 0 && forall k :: 0 <= k < |s| ==> IsDecimalDigit(s[k])
  }

  /** The text has no digit where `parseInt` looks for one: after the white space and an optional sign. */
  predicate NoLeadingDigit(s: string) {
    var t := TrimStart(s);
    var u := if |t| > 0 && (t[0] == '-' || t[0] == '+') then t[1..] else t;
    |u| == 0 || !IsDecimalDigit(u[0])
  }

  /**
   * `parseInt(field) || 0`: a missing field, text with no digit to read, NaN and
   * zero all become 0; a plain digit string becomes its decimal value; otherwise
   * the result is the number `parseInt` read.
   */
  function ParseCount(field: Option<string>): (n: int)
    ensures field.None? ==> n == 0
    ensures field.Some? && NoLeadingDigit(field.value) ==> n == 0
    ensures field.Some? && IsDigitString(field.value) ==> n == Value(field.value, 10)
    ensures field.Some? && ParseInt(field.value).None? ==> n == 0
    ensures field.Some? && ParseInt(field.value).Some? ==> n == ParseInt(field.value).value
  {
    match field
    case None => 0
    case Some(s) =>
      ReadDigitString(s);
      NoDigitIsNaN(s);
      match ParseInt(s) case None => 0 case Some(v) => v
  }

  /** Decimal digits of a non-negative integer, as `toString()` prints them. */
  function DecimalString(n: nat): (s: string)
    ensures |s| > 0
    ensures forall k :: 0 <= k < |s| ==> IsDecimalDigit(s[k])
  {
    if n < 10 then [DigitChar(n)] else DecimalString(n / 10) + [DigitChar(n % 10)]
  }

  /** `toString()` of an integer. */
  function IntToString(n: int): string {
    if n < 0 then "-" + DecimalString(-n) else DecimalString(n)
  }

  /** Reading back the digits that `toString()` printed gives the number again. */
  lemma {:induction false} ValueOfDecimalString(n: nat)
    ensures Value(DecimalString(n), 10) == n
  {
    var s := DecimalString(n);
    if n >= 10 {
      assert s[..|s| - 1] == DecimalString(n / 10);
      ValueOfDecimalString(n / 10);
    }
  }

  /** A digit run stops exactly at the end of a digit string followed by a non-digit. */
  lemma {:induction false} DigitRunOfDigits(z: string, rest: string, radix: nat)
    requires forall k :: 0 <= k < |z| ==> IsDigitIn(z[k], radix)
    requires |rest| == 0 || !IsDigitIn(rest[0], radix)
    ensures DigitRun(z + rest, radix) == z
  {
    if |z| > 0 {
      assert (z + rest)[1..] == z[1..] + rest;
      DigitRunOfDigits(z[1..], rest, radix);
    } else {
      assert z + rest == rest;
    }
  }

  /** The unsigned reader takes a digit run followed by a non-digit as a decimal number. */
  lemma {:induction false} UnsignedDigitString(d: string, rest: string)
    requires |d| > 0 && forall k :: 0 <= k < |d| ==> IsDecimalDigit(d[k])
    requires |rest| == 0 || !IsDecimalDigit(rest[0])
    requires |d| == 1 && d[0] == '0' ==> |rest| == 0 || (rest[0] != 'x' && rest[0] != 'X')
    ensures ParseUnsigned(d + rest) == Some(Value(d, 10))
  {
    var u := d + rest;
    assert u[0] == d[0];
    if |d| >= 2 {
      assert u[1] == d[1];
    }
    DigitRunOfDigits(d, rest, 10);
  }

  /**
   * A run of decimal digits followed by a non-digit (or nothing) reads as its
   * value, unless a lone `0` is followed by `x`/`X`.
   */
  lemma {:induction false} ParseDigitString(d: string, rest: string)
    requires |d| > 0 && forall k :: 0 <= k < |d| ==> IsDecimalDigit(d[k])
    requires |rest| == 0 || !IsDecimalDigit(rest[0])
    requires |d| == 1 && d[0] == '0' ==> |rest| == 0 || (rest[0] != 'x' && rest[0] != 'X')
    ensures ParseInt(d + rest) == Some(Value(d, 10))
  {
    var u := d + rest;
    UnsignedDigitString(d, rest);
    assert u[0] == d[0];
    DigitIsNotSpaceOrSign(u[0]);
    NoSpaceNoTrim(u);
    UnsignedStart(u);
  }

  /** Text that does not start with white space is not trimmed. */
  lemma {:induction false} NoSpaceNoTrim(t: string)
    requires |t| > 0 && !IsJsSpace(t[0])
    ensures TrimStart(t) == t
  {
  }

  /** Without a sign, `parseInt` reads the text as an unsigned number. */
  lemma {:induction false} UnsignedStart(t: string)
    requires |t| > 0 && t[0] != '-' && t[0] != '+' && !IsJsSpace(t[0])
    ensures ParseInt(t) == match ParseUnsigned(t) case None => None case Some(v) => Some(v as int)
  {
    NoSpaceNoTrim(t);
  }

  /** After a minus sign, `parseInt` reads the rest as an unsigned number and negates it. */
  lemma {:induction false} MinusStart(t: string)
    requires |t| > 0 && t[0] == '-'
    ensures ParseInt(t) == match ParseUnsigned(t[1..]) case None => None case Some(v) => Some(-(v as int))
  {
    NoSpaceNoTrim(t);
  }

  /** The same digits after a minus sign read as the negated value. */
  lemma {:induction false} ParseNegativeDigitString(d: string, rest: string)
    requires |d| > 0 && forall k :: 0 <= k < |d| ==> IsDecimalDigit(d[k])
    requires |rest| == 0 || !IsDecimalDigit(rest[0])
    requires |d| == 1 && d[0] == '0' ==> |rest| == 0 || (rest[0] != 'x' && rest[0] != 'X')
    ensures ParseInt("-" + (d + rest)) == Some(-(Value(d, 10) as int))
  {
    var u := d + rest;
    UnsignedDigitString(d, rest);
    var m := "-" + u;
    assert m[1..] == u;
    MinusStart(m);
  }

  /** A string of decimal digits reads as its decimal value. */
  lemma {:induction false} ReadDigitString(s: string)
    ensures IsDigitString(s) ==> ParseInt(s) == Some(Value(s, 10))
  {
    if IsDigitString(s) {
      assert s + [] == s;
      ParseDigitString(s, []);
    }
  }

  /** Without a digit after the white space and the sign, `parseInt` gives NaN. */
  lemma {:induction false} NoDigitIsNaN(s: string)
    ensures NoLeadingDigit(s) ==> ParseInt(s).None?
  {
  }

  /** A digit is neither white space nor a sign, so `parseInt` starts reading at it. */
  lemma {:induction false} DigitIsNotSpaceOrSign(c: char)
    requires IsDecimalDigit(c)
    ensures !IsJsSpace(c) && c != '-' && c != '+'
  {
  }

  /**
   * `parseInt` reads the number `toString()` printed back, and ignores whatever
   * follows it unless that continues the number; the one trap is `0` followed by
   * `x`, which `parseInt` reads as a hexadecimal prefix.
   */
  lemma {:induction false} ParseDecimalPrefix(n: nat, rest: string)
    requires |rest| == 0 || !IsDecimalDigit(rest[0])
    requires n == 0 ==> |rest| == 0 || (rest[0] != 'x' && rest[0] != 'X')
    ensures ParseInt(DecimalString(n) + rest) == Some(n)
  {
    var d := DecimalString(n);
    if n >= 10 {
      LeadingDigitNonZero(n);
    } else {
      assert |d| == 1 && d[0] == DigitChar(n);
    }
    ParseDigitString(d, rest);
    ValueOfDecimalString(n);
  }

  /** `toString()` never prints a leading zero for a number of two or more digits. */
  lemma {:induction false} LeadingDigitNonZero(n: nat)
    requires n >= 10
    ensures DecimalString(n)[0] != '0'
    ensures |DecimalString(n)| >= 2
  {
    if n / 10 >= 10 {
      LeadingDigitNonZero(n / 10);
    }
  }

  /** A count field holding the decimal digits of `n` is read as `n`. */
  lemma {:induction false} DecimalCountIsRead(n: nat)
    ensures ParseCount(Some(DecimalString(n))) == n
  {
    ParseDecimalPrefix(n, []);
    assert DecimalString(n) + [] == DecimalString(n);
  }

  /** `toString()` followed by `parseInt` is the identity on integers. */
  lemma {:induction false} IntToStringRoundTrip(n: int)
    ensures ParseInt(IntToString(n)) == Some(n)
  {
    var printed := IntToString(n);
    if n < 0 {
      var m: nat := -n;
      assert printed == "-" + DecimalString(m);
      NegativeRoundTrip(m);
    } else {
      assert printed == DecimalString(n);
      DecimalCountIsRead(n);
    }
  }

  /** The digits of `m` after a minus sign read as `-m`. */
  lemma {:induction false} NegativeRoundTrip(m: nat)
    ensures ParseInt("-" + DecimalString(m)) == Some(-(m as int))
  {
    var d := DecimalString(m);
    if m >= 10 {
      LeadingDigitNonZero(m);
    } else {
      assert |d| == 1;
    }
    ValueOfDecimalString(m);
    assert d + [] == d;
    ParseNegativeDigitString(d, []);
  }

  /** White space before the number does not change what `parseInt` reads. */
  lemma {:induction false} ParseIgnoresLeadingSpace(ws: string, s: string)
    requires forall k :: 0 <= k < |ws| ==> IsJsSpace(ws[k])
    ensures ParseInt(ws + s) == ParseInt(s)
  {
    TrimAfterSpace(ws, s);
  }

  lemma {:induction false} TrimAfterSpace(ws: string, s: string)
    requires forall k :: 0 <= k < |ws| ==> IsJsSpace(ws[k])
    ensures TrimStart(ws + s) == TrimStart(s)
  {
    if |ws| > 0 {
      assert (ws + s)[1..] == ws[1..] + s;
      TrimAfterSpace(ws[1..], s);
    } else {
      assert ws + s == s;
    }
  }
}

=== FILE: refresh.dfy ===
/**
 * The periodic refresh cycle (`updateVideoAnalytics`): every stored video is
 * visited in order, looked up, and given one new snapshot when the lookup
 * answers; a failed lookup skips that video and the cycle goes on. The lookup
 * is an oracle; the pacing delay between lookups is not modelled.
 */
module Refresh {
  import opened Wrappers
  import opened Snapshots
  import opened YouTube
  import opened Videos

  /** The snapshot recorded from a lookup answer at time `now`. */
  function SnapshotOf(info: VideoInfo, now: int): Snapshot {
    Snapshot(now, info.views, info.likes, info.comments)
  }

  /** The lookup the cycle uses: the API response for the id, shaped by `GetVideoInfo`. */
  function Lookup(api: string -> Response): string -> Option<VideoInfo> {
    id => GetVideoInfo(api(id))
  }

  /**
   * One video's step: append one snapshot with the answered counts, or leave
   * the video as it is when the lookup gives nothing. Only the history changes,
   * and only at its end.
   */
  function RefreshVideo(v: Video, fetch: string -> Option<VideoInfo>, now: int): (w: Video)
    ensures w.(analytics := v.analytics) == v
    ensures v.analytics <= w.analytics
    ensures fetch(v.videoId).None? ==> w == v
    ensures fetch(v.videoId).Some? ==>
              && |w.analytics| == |v.analytics| + 1
              && Latest(w.analytics) == Counts(fetch(v.videoId).value.views, fetch(v.videoId).value.likes,
                                               fetch(v.videoId).value.comments)
              && (|v.analytics| > 0 ==> First(w.analytics) == First(v.analytics))
  {
    match fetch(v.videoId)
    case None => v
    case Some(info) => v.(analytics := Append(v.analytics, SnapshotOf(info, now)))
  }

  /** A request that throws, or an answer without items, leaves the video untouched. */
  lemma FailedLookupSkipsVideo(v: Video, api: string -> Response, now: int)
    requires api(v.videoId).RequestFailed? || api(v.videoId) == Items([])
    ensures RefreshVideo(v, Lookup(api), now) == v
  {
  }

  /**
   * The cycle over all videos, in order. Each result is its input with exactly
   * one snapshot of the answered counts appended, or the input itself when the
   * lookup failed; no earlier snapshot is changed or removed, and no video's
   * identity or owner changes.
   */
  method UpdateVideoAnalytics(videos: seq<Video>, fetch: string -> Option<VideoInfo>, now: int)
    returns (updated: seq<Video>)
    ensures |updated| == |videos|
    ensures forall i :: 0 <= i < |videos| ==> updated[i].(analytics := videos[i].analytics) == videos[i]
    ensures forall i :: 0 <= i < |videos| ==> videos[i].analytics <= updated[i].analytics
    ensures forall i :: 0 <= i < |videos| && fetch(videos[i].videoId).None? ==> updated[i] == videos[i]
    ensures forall i :: 0 <= i < |videos| && fetch(videos[i].videoId).Some? ==>
              updated[i].analytics == videos[i].analytics + [SnapshotOf(fetch(videos[i].videoId).value, now)]
    ensures Valid(videos) ==> Valid(updated)
  {
    updated := [];
    var i := 0;
    while i < |videos|
      invariant 0 <= i <= |videos|
      invariant |updated| == i
      invariant forall j :: 0 <= j < i ==> updated[j] == RefreshVideo(videos[j], fetch, now)
    {
      var video := videos[i];
      var info := fetch(video.videoId);
      if info.Some? {
        video := video.(analytics := video.analytics + [SnapshotOf(info.value, now)]);
      }
      updated := updated + [video];
      i := i + 1;
    }
    if Valid(videos) {
      RefreshPreservesValid(videos, updated);
    }
  }

  /** The cycle keeps document ids and (owner, YouTube id) pairs unique. */
  lemma RefreshPreservesValid(videos: seq<Video>, updated: seq<Video>)
    requires Valid(videos) && |updated| == |videos|
    requires forall i :: 0 <= i < |videos| ==> updated[i].(analytics := videos[i].analytics) == videos[i]
    ensures Valid(updated)
  {
    forall i | 0 <= i < |videos|
      ensures updated[i].id == videos[i].id && updated[i].userId == videos[i].userId
      ensures updated[i].videoId == videos[i].videoId
    {
      assert updated[i].(analytics := videos[i].analytics).id == updated[i].id;
      assert updated[i].(analytics := videos[i].analytics).userId == updated[i].userId;
      assert updated[i].(analytics := videos[i].analytics).videoId == updated[i].videoId;
    }
  }
}

=== FILE: snapshots.dfy ===
/**
 * A video's measurement history: an append-only sequence of snapshots whose
 * storage order is the order they were appended in. "Latest" is the last
 * element and "first day" is element 0; an empty history reads as all zeros.
 */
module Snapshots {

  /** The three counters one measurement records. */
  datatype Counts = Counts(views: int, likes: int, comments: int) {
    /** Component-wise sum, used for the dashboard totals. */
    function Plus(other: Counts): Counts {
      Counts(views + other.views, likes + other.likes, comments + other.comments)
    }
  }

  const Zero := Counts(0, 0, 0)

  /** One stored measurement. Dates are abstract instants (milliseconds since the epoch). */
  datatype Snapshot = Snapshot(date: int, views: int, likes: int, comments: int) {
    function ToCounts(): Counts {
      Counts(views, likes, comments)
    }
  }

  /** The current measurement: the last one appended, or zeros when there is none. */
  function Latest(history: seq<Snapshot>): Counts {
    if |history| > 0 then history[|history| - 1].ToCounts() else Zero
  }

  /** The first-day baseline: the first one appended, or zeros when there is none. */
  function First(history: seq<Snapshot>): Counts {
    if |history| > 0 then history[0].ToCounts() else Zero
  }

  /** Counts a measurement can report only when none is negative. */
  predicate NonNegative(c: Counts) {
    c.views >= 0 && c.likes >= 0 && c.comments >= 0
  }

  /**
   * Recording a measurement: the new snapshot goes at the end, every earlier one
   * is kept unchanged in place, it becomes the latest, and the first-day baseline
   * moves only when the history was empty.
   */
  function Append(history: seq<Snapshot>, s: Snapshot): (h: seq<Snapshot>)
    ensures |h| == |history| + 1
    ensures history <= h
    ensures h[|history|] == s
    ensures Latest(h) == s.ToCounts()
    ensures |history| > 0 ==> First(h) == First(history)
    ensures |history| == 0 ==> First(h) == s.ToCounts()
  {
    history + [s]
  }

  /** With a single measurement, the first-day and the latest counts coincide. */
  lemma SingleSnapshotFirstIsLatest(history: seq<Snapshot>)
    requires |history| == 1
    ensures First(history) == Latest(history)
  {
  }

  /** An earlier history is a prefix of any later one, whatever was appended in between. */
  lemma {:induction false} AppendsKeepPrefix(history: seq<Snapshot>, added: seq<Snapshot>)
    ensures history <= AppendAll(history, added)
    ensures |AppendAll(history, added)| == |history| + |added|
    ensures |history| > 0 ==> First(AppendAll(history, added)) == First(history)
  {
    if |added| > 0 {
      AppendsKeepPrefix(history, added[..|added| - 1]);
    }
  }

  /** The history after appending each of `added` in turn. */
  function AppendAll(history: seq<Snapshot>, added: seq<Snapshot>): seq<Snapshot> {
    if |added| == 0 then history else Append(AppendAll(history, added[..|added| - 1]), added[|added| - 1])
  }
}

=== FILE: video_url.dfy ===
/**
 * Extracting the YouTube video id from a user-supplied URL with the regular
 * expression `(?:youtube\.com\/watch\?v=|youtu\.be\/)([^&\n?#]+)`, unanchored,
 * returning the first capture group of the leftmost match.
 */
module VideoUrl {
  import opened Wrappers

  const WatchMarker: string := "youtube.com/watch?v="
  const ShortMarker: string := "youtu.be/"

  /** The characters the id's character class `[^&\n?#]` excludes. */
  predicate IsTerminator(c: char) {
    c == '&' || c == '\n' || c == '?' || c == '#'
  }

  /** A string the capture group can produce: non-empty and terminator-free. */
  predicate ValidId(id: string) {
    |id| > 0 && forall k :: 0 <= k < |id| ==> !IsTerminator(id[k])
  }

  /** The greedy `[^&\n?#]*`: the longest terminator-free prefix of `s`. */
  function IdRun(s: string): (r: string)
    ensures |r| <= |s| && r == s[..|r|]
    ensures forall k :: 0 <= k < |r| ==> !IsTerminator(r[k])
    ensures |r| < |s| ==> IsTerminator(s[|r|])
  {
    if |s| > 0 && !IsTerminator(s[0]) then [s[0]] + IdRun(s[1..]) else []
  }

  /** The id a marker yields when it begins `rest` and at least one id character follows. */
  function AfterMarker(rest: string, marker: string): Option<string> {
    if marker <= rest && |IdRun(rest[|marker|..])| > 0 then Some(IdRun(rest[|marker|..])) else None
  }

  /** The regular expression tried at position `i`: the first alternative, then the second. */
  function MatchAt(url: string, i: nat): (r: Option<string>)
    requires i <= |url|
    ensures r.Some? ==> ValidId(r.value)
  {
    var rest := url[i..];
    match AfterMarker(rest, WatchMarker)
    case Some(id) => Some(id)
    case None => AfterMarker(rest, ShortMarker)
  }

  /** `j` is the first position at or after `i` where the expression matches. */
  ghost predicate LeftmostFrom(url: string, i: nat, j: nat)
    requires i <= j <= |url|
  {
    MatchAt(url, j).Some? && forall k :: i <= k < j ==> MatchAt(url, k).None?
  }

  /** Tries the expression at `i`, `i + 1`, ... up to the end of the URL. */
  function Scan(url: string, i: nat): (r: Option<string>)
    requires i <= |url|
    ensures r.Some? ==> ValidId(r.value)
    decreases |url| - i
  {
    if MatchAt(url, i).Some? || i == |url| then MatchAt(url, i) else Scan(url, i + 1)
  }

  /** The scan finds the leftmost match at or after `i`, and finds nothing only when there is none. */
  lemma {:induction false} ScanFindsLeftmost(url: string, i: nat)
    requires i <= |url|
    ensures Scan(url, i).None? ==> forall j :: i <= j <= |url| ==> MatchAt(url, j).None?
    ensures Scan(url, i).Some? ==>
              exists j :: i <= j <= |url| && LeftmostFrom(url, i, j) && MatchAt(url, j) == Scan(url, i)
    decreases |url| - i
  {
    if MatchAt(url, i).Some? {
      assert LeftmostFrom(url, i, i);
    } else if i < |url| {
      ScanFindsLeftmost(url, i + 1);
      if Scan(url, i).Some? {
        var j :| i + 1 <= j <= |url| && LeftmostFrom(url, i + 1, j) && MatchAt(url, j) == Scan(url, i);
        assert LeftmostFrom(url, i, j);
      }
    }
  }

  /**
   * `extractVideoId(url)` (and the same expression inlined in the server's add
   * route): the capture of the leftmost position where the expression matches,
   * or `None` when it matches nowhere.
   */
  function ExtractVideoId(url: string): (r: Option<string>)
    ensures r.Some? ==> ValidId(r.value)
  {
    Scan(url, 0)
  }

  /** The extracted id is the capture of the leftmost match, and there is none only when nothing matches. */
  lemma ExtractIsLeftmostMatch(url: string)
    ensures ExtractVideoId(url).Some? <==> exists j :: 0 <= j <= |url| && MatchAt(url, j).Some?
    ensures ExtractVideoId(url).Some? ==>
              exists j :: 0 <= j <= |url| && LeftmostFrom(url, 0, j) && MatchAt(url, j) == ExtractVideoId(url)
  {
    ScanFindsLeftmost(url, 0);
  }

  /** When the expression first matches at `p`, the extracted id is that match's capture. */
  lemma ExtractIsFirstMatch(url: string, p: nat)
    requires p <= |url| && LeftmostFrom(url, 0, p)
    ensures ExtractVideoId(url) == MatchAt(url, p)
  {
    var r := ExtractVideoId(url);
    ExtractIsLeftmostMatch(url);
    var j :| 0 <= j <= |url| && LeftmostFrom(url, 0, j) && MatchAt(url, j) == r;
  }

  /** A URL containing neither marker yields no id. */
  lemma NoMarkerNoId(url: string)
    requires forall j :: 0 <= j <= |url| ==> !(WatchMarker <= url[j..]) && !(ShortMarker <= url[j..])
    ensures ExtractVideoId(url) == None
  {
    ExtractIsLeftmostMatch(url);
    forall j | 0 <= j <= |url|
      ensures MatchAt(url, j).None?
    {
      assert !(WatchMarker <= url[j..]) && !(ShortMarker <= url[j..]);
    }
  }

  /** The greedy run stops at the first terminator after a valid id. */
  lemma {:induction false} IdRunOfId(id: string, rest: string)
    requires forall k :: 0 <= k < |id| ==> !IsTerminator(id[k])
    requires |rest| == 0 || IsTerminator(rest[0])
    ensures IdRun(id + rest) == id
  {
    if |id| > 0 {
      assert (id + rest)[1..] == id[1..] + rest;
      IdRunOfId(id[1..], rest);
    } else {
      assert id + rest == rest;
    }
  }

  /** Nothing matches at a position that does not hold a `y`, where both markers begin. */
  lemma NoMatchWithoutY(url: string, j: nat)
    requires j < |url| && url[j] != 'y'
    ensures MatchAt(url, j).None?
  {
    assert url[j..][0] == url[j];
  }

  /** A marker followed by a valid id and then a terminator (or the end) matches with that id. */
  lemma MatchAtMarker(url: string, p: nat, marker: string, id: string, rest: string)
    requires marker == WatchMarker || marker == ShortMarker
    requires p <= |url| && url[p..] == marker + id + rest
    requires ValidId(id)
    requires |rest| == 0 || IsTerminator(rest[0])
    ensures MatchAt(url, p) == Some(id)
  {
    assert url[p..][|marker|..] == id + rest;
    IdRunOfId(id, rest);
    if marker == ShortMarker {
      assert url[p..][5] == '.';
    }
  }

  /** The id written after a marker, up to a terminator or the end, is extracted again. */
  lemma MarkerRoundTrip(prefix: string, marker: string, id: string, rest: string)
    requires marker == WatchMarker || marker == ShortMarker
    requires forall k :: 0 <= k < |prefix| ==> prefix[k] != 'y'
    requires ValidId(id)
    requires |rest| == 0 || IsTerminator(rest[0])
    ensures ExtractVideoId(prefix + marker + id + rest) == Some(id)
  {
    var url := prefix + marker + id + rest;
    var p := |prefix|;
    forall k | 0 <= k < p
      ensures MatchAt(url, k).None?
    {
      assert url[k] == prefix[k];
      NoMatchWithoutY(url, k);
    }
    assert url[p..] == marker + id + rest;
    MatchAtMarker(url, p, marker, id, rest);
    ExtractIsFirstMatch(url, p);
  }

  /** A watch page link with a timestamp parameter after the id. */
  lemma WatchLinkRoundTrip(id: string)
    requires ValidId(id)
    ensures ExtractVideoId("https://www.youtube.com/watch?v=" + id + "&t=42s") == Some(id)
  {
    var prefix := "https://www.";
    var url := "https://www.youtube.com/watch?v=" + id + "&t=42s";
    assert url == prefix + WatchMarker + id + "&t=42s";
    MarkerRoundTrip(prefix, WatchMarker, id, "&t=42s");
  }

  /** A short share link that ends with the id. */
  lemma ShareLinkRoundTrip(id: string)
    requires ValidId(id)
    ensures ExtractVideoId("https://youtu.be/" + id) == Some(id)
  {
    var prefix := "https://";
    var url := "https://youtu.be/" + id;
    assert url == prefix + ShortMarker + id + "";
    MarkerRoundTrip(prefix, ShortMarker, id, "");
  }
}

=== FILE: videos.dfy ===
/**
 * The videos collection and the two operations on it that users trigger:
 * registering a video by URL and deleting one of their own. The database is a
 * sequence of documents in insertion order; `_id` and `userId` are abstract
 * numbers, and a fresh `_id` is supplied by the caller as the database would.
 */
module Videos {
  import opened Wrappers
  import opened Snapshots
  import opened YouTube
  import opened VideoUrl

  /** A tracked video document with its embedded measurement history. */
  datatype Video = Video(
    id: nat,
    userId: nat,
    videoId: string,
    title: string,
    thumbnail: string,
    url: string,
    addedAt: int,
    analytics: seq<Snapshot>)

  /** The videos collection in insertion order. */
  type Store = seq<Video>

  /** The rejections the routes report. */
  datatype Error = InvalidUrl | AlreadyAdded | NotFound

  /** Some video of `userId` already tracks the YouTube id `videoId`. */
  predicate HasPair(store: Store, userId: nat, videoId: string) {
    exists i :: 0 <= i < |store| && store[i].userId == userId && store[i].videoId == videoId
  }

  /** Some video already has the document id `id`. */
  predicate IdInUse(store: Store, id: nat) {
    exists i :: 0 <= i < |store| && store[i].id == id
  }

  /** Document ids are unique, and so is every (owner, YouTube id) pair. */
  predicate Valid(store: Store) {
    forall i, j :: 0 <= i < j < |store| ==>
      && store[i].id != store[j].id
      && (store[i].userId != store[j].userId || store[i].videoId != store[j].videoId)
  }

  /**
   * The add route of the video module, whose checks the server's inline add
   * route shares: reject a URL the id expression does not match, then a pair
   * the user already tracks, then a video the lookup (the YouTube query) does
   * not find; otherwise append a new document whose title, thumbnail and single
   * snapshot come from the lookup's answer.
   */
  function Register(store: Store, userId: nat, url: string, lookup: string -> Option<VideoInfo>,
                    newId: nat, now: int): (r: Result<Store, Error>)
    requires !IdInUse(store, newId)
    ensures ExtractVideoId(url).None? ==> r == Failure(InvalidUrl)
    ensures ExtractVideoId(url).Some? && HasPair(store, userId, ExtractVideoId(url).value) ==>
              r == Failure(AlreadyAdded)
    ensures (&& ExtractVideoId(url).Some?
             && !HasPair(store, userId, ExtractVideoId(url).value)
             && lookup(ExtractVideoId(url).value).None?) ==> r == Failure(NotFound)
    ensures r.Success? <==>
              && ExtractVideoId(url).Some?
              && !HasPair(store, userId, ExtractVideoId(url).value)
              && lookup(ExtractVideoId(url).value).Some?
    ensures r.Success? ==>
              var videoId := ExtractVideoId(url).value;
              var info := lookup(videoId).value;
              && |r.value| == |store| + 1
              && r.value[..|store|] == store
              && r.value[|store|] == Video(newId, userId, videoId, info.title, info.thumbnail, url, now,
                                           [Snapshot(now, info.views, info.likes, info.comments)])
    ensures r.Failure? ==> r.error != NotFound || lookup(ExtractVideoId(url).value).None?
  {
    match ExtractVideoId(url)
    case None => Failure(InvalidUrl)
    case Some(videoId) =>
      if HasPair(store, userId, videoId) then Failure(AlreadyAdded)
      else
        match lookup(videoId)
        case None => Failure(NotFound)
        case Some(info) =>
          var video := Video(newId, userId, videoId, info.title, info.thumbnail, url, now,
                             [Snapshot(now, info.views, info.likes, info.comments)]);
          assert (store + [video])[..|store|] == store;
          Success(store + [video])
  }

  /** A successful registration keeps ids and (owner, YouTube id) pairs unique. */
  lemma RegisterPreservesValid(store: Store, userId: nat, url: string, lookup: string -> Option<VideoInfo>,
                               newId: nat, now: int)
    requires Valid(store) && !IdInUse(store, newId)
    ensures var r := Register(store, userId, url, lookup, newId, now);
            r.Success? ==> Valid(r.value) && HasPair(r.value, userId, ExtractVideoId(url).value)
  {
    var r := Register(store, userId, url, lookup, newId, now);
    if r.Success? {
      var s := r.value;
      var n := |store|;
      forall i, j | 0 <= i < j < |s|
        ensures s[i].id != s[j].id
        ensures s[i].userId != s[j].userId || s[i].videoId != s[j].videoId
      {
        if j == n {
          assert s[i] == store[i];
        } else {
          assert s[i] == store[i] && s[j] == store[j];
        }
      }
    }
  }

  /** The title the server's inline add route gives every new video. */
  const PlaceholderTitle: string := "YouTube Video"

  /** The thumbnail address the server's inline add route derives from the id. */
  function PlaceholderThumbnail(videoId: string): string {
    "https://img.youtube.com/vi/" + videoId + "/mqdefault.jpg"
  }

  /** The fixed answer the server's inline add route uses instead of a YouTube query. */
  function Placeholder(videoId: string): Option<VideoInfo> {
    Some(VideoInfo(PlaceholderTitle, PlaceholderThumbnail(videoId), 0, 0, 0))
  }

  /**
   * The add route inlined in the server: the same checks without a lookup, so it
   * succeeds exactly when the URL yields an id the user does not track yet. The
   * new document has the placeholder title, the thumbnail derived from the id,
   * and a single all-zero snapshot.
   */
  function AddVideoInline(store: Store, userId: nat, url: string, newId: nat, now: int): (r: Result<Store, Error>)
    requires !IdInUse(store, newId)
    ensures ExtractVideoId(url).None? ==> r == Failure(InvalidUrl)
    ensures ExtractVideoId(url).Some? && HasPair(store, userId, ExtractVideoId(url).value) ==>
              r == Failure(AlreadyAdded)
    ensures r.Success? <==> ExtractVideoId(url).Some? && !HasPair(store, userId, ExtractVideoId(url).value)
    ensures r.Failure? ==> r.error != NotFound
    ensures r.Success? ==>
              var videoId := ExtractVideoId(url).value;
              && |r.value| == |store| + 1
              && r.value[..|store|] == store
              && r.value[|store|] == Video(newId, userId, videoId, PlaceholderTitle, PlaceholderThumbnail(videoId),
                                           url, now, [Snapshot(now, 0, 0, 0)])
              && Latest(r.value[|store|].analytics) == Zero
  {
    Register(store, userId, url, Placeholder, newId, now)
  }

  /** `video` is the document with id `id` owned by `userId`. */
  predicate Matches(video: Video, id: nat, userId: nat) {
    video.id == id && video.userId == userId
  }

  /** The position of the first document matching id and owner, or `|store|` when none does. */
  function FirstMatch(store: Store, id: nat, userId: nat): (k: nat)
    ensures k <= |store|
    ensures forall j :: 0 <= j < k ==> !Matches(store[j], id, userId)
    ensures k < |store| ==> Matches(store[k], id, userId)
  {
    if |store| == 0 || Matches(store[0], id, userId) then 0
    else 1 + FirstMatch(store[1..], id, userId)
  }

  /**
   * `findOneAndDelete({_id, userId})`: removes the first document matching both
   * the id and the owner; when none matches, nothing changes and the route
   * reports not found.
   */
  function DeleteVideo(store: Store, id: nat, userId: nat): (r: Result<Store, Error>)
    ensures r.Failure? <==> forall i :: 0 <= i < |store| ==> !Matches(store[i], id, userId)
    ensures r.Failure? ==> r.error == NotFound
    ensures r.Success? ==>
              exists k :: && 0 <= k < |store|
                          && Matches(store[k], id, userId)
                          && (forall j :: 0 <= j < k ==> !Matches(store[j], id, userId))
                          && r.value == store[..k] + store[k + 1..]
  {
    var k := FirstMatch(store, id, userId);
    if k == |store| then Failure(NotFound) else Success(store[..k] + store[k + 1..])
  }

  /** Removing the document at `k` keeps ids and pairs unique and leaves no other document with its id. */
  lemma RemovePreservesValid(store: Store, k: nat)
    requires Valid(store) && k < |store|
    ensures Valid(store[..k] + store[k + 1..])
    ensures !IdInUse(store[..k] + store[k + 1..], store[k].id)
  {
    var s := store[..k] + store[k + 1..];
    assert forall i :: 0 <= i < |s| ==> s[i] == store[if i < k then i else i + 1];
  }

  /** A successful delete keeps the collection valid and leaves no document with that id. */
  lemma DeletePreservesValid(store: Store, id: nat, userId: nat)
    requires Valid(store)
    ensures var r := DeleteVideo(store, id, userId);
            r.Success? ==> Valid(r.value) && !IdInUse(r.value, id) && |r.value| == |store| - 1
  {
    var k := FirstMatch(store, id, userId);
    if k < |store| {
      RemovePreservesValid(store, k);
    }
  }

  /** Another user's request never deletes: the route reports not found and nothing changes. */
  lemma DeleteNeedsOwner(store: Store, id: nat, userId: nat)
    requires forall i :: 0 <= i < |store| && store[i].id == id ==> store[i].userId != userId
    ensures DeleteVideo(store, id, userId) == Failure(NotFound)
  {
  }

  /** `Video.find({userId})`: the user's videos, each as often as the collection holds it. */
  function OwnedBy(store: Store, userId: nat): (r: seq<Video>)
    ensures forall i :: 0 <= i < |r| ==> r[i].userId == userId && r[i] in store
    ensures forall i :: 0 <= i < |store| && store[i].userId == userId ==> store[i] in r
    ensures forall v :: multiset(r)[v] == if v.userId == userId then multiset(store)[v] else 0
    ensures |r| <= |store|
  {
    if |store| == 0 then []
    else
      var rest := OwnedBy(store[1..], userId);
      assert forall i :: 1 <= i < |store| ==> store[i] == store[1..][i - 1];
      assert store == [store[0]] + store[1..];
      var ms := multiset(store);
      assert ms == multiset{store[0]} + multiset(store[1..]);
      if store[0].userId == userId then
        var r := [store[0]] + rest;
        assert multiset(r) == multiset{store[0]} + multiset(rest);
        r
      else
        rest
  }
}

=== FILE: wrappers.dfy ===
/** Failure-carrying wrappers shared by the dashboard model. */
module Wrappers {

  /** A value that may be absent: JavaScript's `null`/`undefined` results. */
  datatype Option<+T> = None | Some(value: T)

  /** The outcome of an operation that either produces a value or reports an error. */
  datatype Result<+T, +E> = Success(value: T) | Failure(error: E)
}

=== FILE: youtube.dfy ===
/**
 * The result-shaping part of the YouTube lookup (`getVideoInfo`): how a response
 * of the YouTube Data API becomes the video information the dashboard stores.
 * The HTTP request itself is not modelled; its outcome is the `Response` input.
 */
module YouTube {
  import opened Wrappers
  import opened IntParsing

  /** One entry of the response's `items` array, reduced to the fields the dashboard reads.
      The statistics arrive as decimal strings and may be absent (hidden likes, say). */
  datatype Item = Item(
    title: string,
    thumbnail: string,
    viewCount: Option<string>,
    likeCount: Option<string>,
    commentCount: Option<string>)

  /** What the request produced: a thrown error (network, quota, bad key), or the items. */
  datatype Response = RequestFailed | Items(items: seq<Item>)

  /** The information kept about a video: display data and the three counts. */
  datatype VideoInfo = VideoInfo(title: string, thumbnail: string, views: int, likes: int, comments: int)

  /**
   * A failed request and an empty `items` array both give `None` (the source's
   * `null`); otherwise the first item is used, each count read with `parseInt(...) || 0`.
   */
  function GetVideoInfo(resp: Response): (r: Option<VideoInfo>)
    ensures r.Some? <==> resp.Items? && |resp.items| > 0
    ensures r.Some? ==>
              && r.value.title == resp.items[0].title
              && r.value.thumbnail == resp.items[0].thumbnail
    ensures r.Some? ==>
              && r.value.views == ParseCount(resp.items[0].viewCount)
              && r.value.likes == ParseCount(resp.items[0].likeCount)
              && r.value.comments == ParseCount(resp.items[0].commentCount)
  {
    match resp
    case RequestFailed => None
    case Items(items) =>
      if |items| == 0 then None
      else
        var item := items[0];
        Some(VideoInfo(item.title, item.thumbnail,
                       ParseCount(item.viewCount), ParseCount(item.likeCount), ParseCount(item.commentCount)))
  }

  /** Counts the API reports as decimal strings are stored as those numbers. */
  lemma DecimalCountsAreRead(item: Item, rest: seq<Item>, views: nat, likes: nat, comments: nat)
    requires item.viewCount == Some(DecimalString(views))
    requires item.likeCount == Some(DecimalString(likes))
    requires item.commentCount == Some(DecimalString(comments))
    ensures GetVideoInfo(Items([item] + rest)) == Some(VideoInfo(item.title, item.thumbnail, views, likes, comments))
  {
    DecimalCountIsRead(views);
    DecimalCountIsRead(likes);
    DecimalCountIsRead(comments);
    assert ([item] + rest)[0] == item;
  }

  /** A statistics field that is absent, or whose text has no digit for `parseInt` to read, is stored as 0. */
  lemma UnreadableCountsAreZero(item: Item, rest: seq<Item>)
    requires item.viewCount.None? || NoLeadingDigit(item.viewCount.value)
    requires item.likeCount.None? || NoLeadingDigit(item.likeCount.value)
    requires item.commentCount.None? || NoLeadingDigit(item.commentCount.value)
    ensures GetVideoInfo(Items([item] + rest)).Some?
    ensures GetVideoInfo(Items([item] + rest)).value.views == 0
    ensures GetVideoInfo(Items([item] + rest)).value.likes == 0
    ensures GetVideoInfo(Items([item] + rest)).value.comments == 0
  {
    assert ([item] + rest)[0] == item;
  }
}
